=== FILE: README.md ===
# Decision-application planner of the photo sorter

The photo sorter's server UI exports a decisions document: one entry per
detected face (`image_id`, `decision`, `best_person`, `score`) plus the sort
parameters, of which only `multi_face_policy` matters here. The local
`apply decisions` tool reads that document and files every image into
`sorted_root/<person>/` by moving, copying or linking it.

This project models that tool's planning logic as pure Dafny functions and
proves what it does:

- **Grouping** (`grouping.dfy`): entries are grouped by `image_id` in order
  of first appearance. Entries whose id is missing, null or empty are dropped.
- **Face selection** (`faces.dfy`): a face counts when its decision is
  exactly `"accept"` and it names a best person. Under `best_single` only the
  face a stable descending sort by `score or -1` puts first is kept. The
  persons are de-duplicated in first-seen order.
- **Paths** (`paths.dfy`): pathlib's `/` and `.name` on plain strings. The
  source file is looked up first as the id itself, then under the inbox root.
- **Planning** (`planner.dfy`): for each group the planner emits one operation
  per person. In move mode that is one move and then copies taken from the
  moved file. In copy mode every operation is a copy, in link mode a link.
  The planner keeps the `moved`, `copied`, `linked` and `skipped` counters.
  The file system is the set of paths that are existing files. It changes as
  operations run, so a later image can resolve differently after an earlier
  move.
- Shared helpers: `optional.dfy` (Option) and `seqs.dfy` (order-preserving
  filter, first-seen de-duplication, first index).

Under `best_single` the tool does not rewrite any decision: it only keeps the
single best face when choosing folders
(`local_app/local_apply_decisions.py:72-74`).

The file system and the command-line arguments are parameters: `files`
(existing files), `inbox`, `sortedRoot` and `mode`. A relative `image_id` is
looked up as given in `files`.

## Model

| member | source | states |
|---|---|---|
| Decisions.Policy | local_app/local_apply_decisions.py:35 | A missing or null `params`, or a missing `multi_face_policy`, gives "copy_all"; the policy is "best_single" exactly when the document sets it to that string |
| Grouping.ImageKey | local_app/local_apply_decisions.py:40-42 | An entry has a grouping key exactly when its `image_id` is present and non-empty, and the key is that id |
| Grouping.ImageIds | local_app/local_apply_decisions.py:38-43 | The group keys are distinct and are exactly the ids some kept entry carries |
| Grouping.GroupByImageSpec | local_app/local_apply_decisions.py:37-43 | The `setdefault`/`append` loop yields one group per distinct id, in first-appearance order, each holding every entry with that id in document order |
| Grouping.GroupsInFirstAppearanceOrder | local_app/local_apply_decisions.py:38-43 | Of two groups, the earlier one's id first occurs earlier in the document, and no id has two groups |
| Seqs.Dedup | local_app/local_apply_decisions.py:77-83 | De-duplication yields no repeats, loses and invents no element, and is no longer than its input |
| Seqs.DedupFirstSeenOrder | local_app/local_apply_decisions.py:77-83 | De-duplicated elements keep the order of their first occurrences |
| Seqs.DedupOfDistinct | local_app/local_apply_decisions.py:77-83 | A sequence without repeats is left unchanged by de-duplication |
| Paths.BaseNameIsLastComponent | local_app/local_apply_decisions.py:89 | `.name` is the longest suffix of the path without a separator, preceded by a separator unless it is the whole path |
| Paths.JoinKeepsBaseName | local_app/local_apply_decisions.py:89-97 | A file placed in any directory under a name keeps that name, so copies made from the moved file use the original file name |
| Paths.Resolve | local_app/local_apply_decisions.py:56-63 | The id itself is used when it is a file, otherwise the id under the inbox root when that is a file, otherwise nothing; a found path is always an existing file |
| Faces.Accepted | local_app/local_apply_decisions.py:66 | The kept faces are exactly those with decision "accept" and a non-empty best person, and there are no more of them than faces |
| Faces.AcceptedSnoc | local_app/local_apply_decisions.py:66 | The accepted faces keep document order and repeats: appending a face appends it to the accepted faces exactly when its decision is "accept" and it names a best person |
| Faces.BestSingleKeepsTop | local_app/local_apply_decisions.py:66-74 | Under "best_single" the face kept is one of the image's own faces that is accepted, ranks at least as high as every accepted face, and ranks strictly higher than every earlier accepted face |
| Faces.BestIndex | local_app/local_apply_decisions.py:72-74 | The chosen face has the maximal `score or -1` key and every earlier face has a strictly smaller key, which is the head of a stable reverse sort |
| Faces.StableTopUnique | local_app/local_apply_decisions.py:73-74 | At most one face can be first after a stable descending sort, so the choice is determined |
| Faces.Select | local_app/local_apply_decisions.py:71-74 | Any policy but "best_single" keeps the accepted list unchanged; "best_single" keeps exactly one accepted face, the stable maximum, when there is one |
| Faces.SelectIdempotent | local_app/local_apply_decisions.py:72-74 | Applying the policy to its own result changes nothing |
| Faces.Persons | local_app/local_apply_decisions.py:77-83 | The persons list has no repeats and is no longer than the faces |
| Faces.PersonsMembers | local_app/local_apply_decisions.py:77-83 | A person is listed exactly when some face carries it as a non-empty best person |
| Faces.CollectPersons | local_app/local_apply_decisions.py:77-83 | The loop with its `seen` set yields the first-seen de-duplication of the faces' best persons |
| Faces.PersonsOfAccepted | local_app/local_apply_decisions.py:66-83 | With at least one accepted face there are between 1 and that many persons, exactly 1 under "best_single", each selected face's best person exactly once |
| Planner.EmitOpsFromSource | local_app/local_apply_decisions.py:86-111 | In copy and link mode, and in move mode after the first person, each operation reads the current source and writes `sorted_root/person/<source name>` |
| Planner.EmitOpsMove | local_app/local_apply_decisions.py:91-100 | In move mode the first operation moves the image to the first person's folder and every later one copies from that moved file, under the original name |
| Planner.EmitOpsExecutable | local_app/local_apply_decisions.py:91-111 | When the image is present, no operation of the image reads a missing file, in particular not the copies after a move |
| Planner.EmitOpsShaped | local_app/local_apply_decisions.py:86-111 | The operation loop gives one operation per person, with the destination and kind each mode prescribes |
| Planner.PlanGroupSpec | local_app/local_apply_decisions.py:54-111 | A group is skipped as missing exactly when neither candidate path is a file, skipped as unaccepted exactly when the file exists but no face is accepted, and otherwise filed under at least one person by executable operations of the prescribed shape |
| Planner.PerformAllSpec | local_app/local_apply_decisions.py:94-111 | Performing operations appends them, bumps each counter by the number of operations of its kind, and leaves the files those operations produce |
| Planner.ShapedCounts | local_app/local_apply_decisions.py:91-111 | A filed group makes exactly one move in move mode, no move or link in copy mode, and no move or copy in link mode |
| Planner.StepSpec | local_app/local_apply_decisions.py:54-111 | Handling one more group keeps the counters equal to the operation counts, skipped plus filed equal to the groups handled, and every operation executable |
| Planner.RunOutcomeAt | local_app/local_apply_decisions.py:54 | The j-th outcome is the j-th group planned against exactly the files the earlier groups left |
| Planner.Plan | local_app/local_apply_decisions.py:34-112 | One outcome per image group, in order. Skipped plus filed groups equal the groups. The counters count the operations of their kind and sum to the number of operations. Move mode moves once per filed group; copy mode only copies; link mode only links. The final files are what the operations leave, and no operation reads a missing file |

## Left out

- Real file-system effects (`shutil.move`, `shutil.copy2`, `os.link`, `symlink_to`) are left out. They are abstract operations on a set of existing paths. The hardlink, then symlink, then copy fallback chain is one `Link` operation that always adds the destination to the files and bumps `linked`.
- Planner.Plan: a symlink fallback for an image found under a relative `image_id` leaves a dangling link, because the link target is resolved against the destination's folder; the model still counts the destination as an existing file.
- Failures of those calls are left out, such as copying a file onto itself or a failing move. Also left out is `ensure_dir` failing because `sorted_root` or `sorted_root/person` already exists as a file: `mkdir` then raises `FileExistsError`. The source crashes in all these cases, but the model emits every operation and assumes each one succeeds.
- Successful directory creation (`ensure_dir`) is left out, because directories never count as files.
- JSON loading, `argparse`, the warning print and the final summary print are left out as I/O. A missing `entries` member is the empty list. Fields are modelled as strings, reals or null, and ill-typed documents are not modelled. These inputs are among those that make the source fail:
  - a null or non-array `entries` (`local_app/local_apply_decisions.py:39`);
  - an entry that is not an object (line 40);
  - a truthy `params` that is not an object (line 35);
  - a truthy non-string `image_id` (line 43 when unhashable, otherwise line 56);
  - a truthy non-string `best_person` (line 81 when unhashable, otherwise line 87);
  - under `best_single`, scores Python cannot compare, such as a string next to a number (line 73).

  Other ill-typed values behave like entries the model covers. A non-string `decision` is simply not "accept", a falsy `image_id` is dropped, and int, float and boolean scores rank by their numeric value, except that a falsy score (`0` or `false`) ranks as -1, as a missing one does. Under `copy_all` the score is never read. All-string scores under `best_single` sort as strings, which the model does not cover.
- Paths follow POSIX rules only: `/` is the only separator and a leading `/` marks an absolute path. Windows paths, with `\` separators and drive letters, are not modelled, so `BaseName` of such an id differs from pathlib's `.name`.
- Paths are plain strings. `Join` follows pathlib's rule that an absolute right operand replaces the base. There is no normalisation of `.`, `..`, repeated or trailing separators, and no `resolve()` of the roots.
- The current directory is not modelled: a relative `image_id` is looked up as the same string in the file set.
- Scores are real numbers. Floating-point rounding and NaN scores are not modelled.
- `local_app/local_embed.py` is left out: it wraps the face extractor and image decoding, its normalisation is floating-point numerics, and its scan and CLI are file-system I/O.
- `local_app/local_companion.py` is left out: it is an HTTP service with a token check and outbound requests.
- `app.py` is left out: it is a web stub whose matching returns hard-coded results.

=== FILE: decisions.dfy ===
/** The decisions document the server UI exports: per-face entries plus the
    sort parameters. Only the fields the planner reads are modelled. */
module Decisions {
  import opened Optional

  /** A JSON object member that may be missing, explicitly `null`, or set. */
  datatype Field<+T> = Absent | Null | Present(value: T)

  /** One face decision. `None` stands for a missing key as well as `null`;
      a score is any JSON number. */
  datatype Entry = Entry(
    imageId: Option<string>,
    decision: Option<string>,
    bestPerson: Option<string>,
    score: Option<real>)

  /** The `params` object; only `multi_face_policy` matters here. */
  datatype Params = Params(multiFacePolicy: Field<string>)

  /** A missing `entries` member is the empty list. */
  datatype Document = Document(entries: seq<Entry>, params: Field<Params>)

  /** The effective multi-face policy. A missing or null `params` object is
      read as `{}`, and a missing policy defaults to "copy_all"; an explicit
      `null` policy stays `None`. */
  function Policy(doc: Document): (p: Option<string>)
    ensures (doc.params.Absent? || doc.params.Null?) ==> p == Some("copy_all")
    ensures doc.params.Present? && doc.params.value.multiFacePolicy.Absent? ==> p == Some("copy_all")
    ensures p == Some("best_single") <==> doc.params == Present(Params(Present("best_single")))
  {
    var params := if doc.params.Present? then doc.params.value else Params(Absent);
    match params.multiFacePolicy
    case Absent => Some("copy_all")
    case Null => None
    case Present(s) => Some(s)
  }

  /** Only the exact policy name "best_single" narrows the accepted faces;
      every other value behaves as "copy_all". */
  predicate IsBestSingle(doc: Document)
  {
    Policy(doc) == Some("best_single")
  }
}

=== FILE: faces.dfy ===
/** Per-image face selection: which faces count as accepted, the
    "best_single" narrowing, and the de-duplicated list of persons. */
module Faces {
  import opened Optional
  import opened Decisions
  import opened Seqs

  /** A face is acted on when its decision is exactly "accept" and it names a
      (non-empty) best person. */
  predicate IsAccepted(f: Entry)
  {
    f.decision == Some("accept") && f.bestPerson.Some? && f.bestPerson.value != ""
  }

  /** The accepted faces of one image, in document order. */
  function Accepted(faces: seq<Entry>): (r: seq<Entry>)
    ensures |r| <= |faces|
    ensures forall f :: f in r <==> f in faces && IsAccepted(f)
  {
    Filter(faces, IsAccepted)
  }

  /** The accepted faces keep document order and repeats: a face appended to
      the image's list is appended to its accepted faces exactly when it is
      accepted. */
  lemma AcceptedSnoc(faces: seq<Entry>, f: Entry)
    ensures Accepted(faces + [f]) == Accepted(faces) + (if IsAccepted(f) then [f] else [])
  {
    FilterSnoc(faces, f, IsAccepted);
  }

  /** The ranking key `score or -1`: a missing, null or zero score ranks
      as -1, any other score as itself. */
  function ScoreKey(f: Entry): real
  {
    if f.score.None? || f.score.value == 0.0 then -1.0 else f.score.value
  }

  /** Face `i` is what a stable descending sort by `ScoreKey` puts first:
      no face ranks higher, and every earlier face ranks strictly lower. */
  ghost predicate IsStableTop(faces: seq<Entry>, i: int)
  {
    && 0 <= i < |faces|
    && (forall j :: 0 <= j < |faces| ==> ScoreKey(faces[j]) <= ScoreKey(faces[i]))
    && (forall j :: 0 <= j < i ==> ScoreKey(faces[j]) < ScoreKey(faces[i]))
  }

  /** At most one face is first after a stable descending sort. */
  lemma StableTopUnique(faces: seq<Entry>, i: int, j: int)
    requires IsStableTop(faces, i) && IsStableTop(faces, j)
    ensures i == j
  {
    assert ScoreKey(faces[i]) == ScoreKey(faces[j]);
  }

  /** The earliest face among those of maximal rank. */
  function BestIndex(faces: seq<Entry>): (i: nat)
    requires |faces| > 0
    ensures IsStableTop(faces, i)
    decreases |faces|
  {
    if |faces| == 1 then 0
    else
      var i := BestIndex(faces[..|faces| - 1]);
      if ScoreKey(faces[|faces| - 1]) > ScoreKey(faces[i]) then |faces| - 1 else i
  }

  /** The accepted faces the multi-face policy keeps: all of them, or under
      "best_single" only the first of a stable descending sort by rank. */
  function Select(bestSingle: bool, accepted: seq<Entry>): (r: seq<Entry>)
    ensures !bestSingle ==> r == accepted
    ensures bestSingle ==> |r| == (if |accepted| == 0 then 0 else 1)
    ensures bestSingle && |r| == 1 ==> exists i :: IsStableTop(accepted, i) && r[0] == accepted[i]
    ensures forall f :: f in r ==> f in accepted
  {
    if bestSingle && |accepted| > 0 then [accepted[BestIndex(accepted)]] else accepted
  }

  /** Face `i` of the image's own list is the one "best_single" keeps: it is
      accepted, no accepted face ranks higher, and every earlier accepted
      face ranks strictly lower. */
  ghost predicate IsAcceptedTop(faces: seq<Entry>, i: int)
  {
    && 0 <= i < |faces|
    && IsAccepted(faces[i])
    && (forall j :: 0 <= j < |faces| && IsAccepted(faces[j]) ==> ScoreKey(faces[j]) <= ScoreKey(faces[i]))
    && (forall j :: 0 <= j < i && IsAccepted(faces[j]) ==> ScoreKey(faces[j]) < ScoreKey(faces[i]))
  }

  /** Appending a face to a non-empty list moves the stable top to the new
      face exactly when it ranks strictly higher. */
  lemma BestIndexSnoc(faces: seq<Entry>, f: Entry)
    requires |faces| > 0
    ensures BestIndex(faces + [f]) ==
      if ScoreKey(f) > ScoreKey(faces[BestIndex(faces)]) then |faces| else BestIndex(faces)
  {
    assert (faces + [f])[..|faces|] == faces;
  }

  /** A rejected face appended to the list does not change the top. */
  lemma AcceptedTopRejected(faces: seq<Entry>, f: Entry, i: int)
    requires IsAcceptedTop(faces, i) && !IsAccepted(f)
    ensures IsAcceptedTop(faces + [f], i)
  {
    var g := faces + [f];
    assert forall j :: 0 <= j < |faces| ==> g[j] == faces[j];
  }

  /** An accepted face appended to the list becomes the top exactly when it
      ranks strictly higher than the old top. */
  lemma AcceptedTopAccepted(faces: seq<Entry>, f: Entry, i: int)
    requires IsAcceptedTop(faces, i) && IsAccepted(f)
    ensures ScoreKey(f) > ScoreKey(faces[i]) ==> IsAcceptedTop(faces + [f], |faces|)
    ensures ScoreKey(f) <= ScoreKey(faces[i]) ==> IsAcceptedTop(faces + [f], i)
  {
    var g := faces + [f];
    assert forall j :: 0 <= j < |faces| ==> g[j] == faces[j];
  }

  /** The first accepted face is the top of the list that ends with it. */
  lemma AcceptedTopFirst(faces: seq<Entry>, f: Entry)
    requires Accepted(faces) == [] && IsAccepted(f)
    ensures IsAcceptedTop(faces + [f], |faces|)
  {
    var g := faces + [f];
    forall j | 0 <= j < |faces|
      ensures g[j] == faces[j] && !IsAccepted(g[j])
    {
      assert faces[j] in faces;
    }
  }

  /** Under "best_single" the face kept is, among the image's own faces, the
      earliest accepted face of maximal rank. */
  lemma {:induction false} BestSingleKeepsTop(faces: seq<Entry>)
    requires Accepted(faces) != []
    ensures exists i :: IsAcceptedTop(faces, i) && Select(true, Accepted(faces)) == [faces[i]]
    decreases |faces|
  {
    var n := |faces| - 1;
    var init, last := faces[..n], faces[n];
    assert faces == init + [last];
    AcceptedSnoc(init, last);
    var ai := Accepted(init);
    if !IsAccepted(last) {
      BestSingleKeepsTop(init);
      var i :| IsAcceptedTop(init, i) && Select(true, ai) == [init[i]];
      AcceptedTopRejected(init, last, i);
      assert Select(true, Accepted(faces)) == [faces[i]];
    } else if ai == [] {
      AcceptedTopFirst(init, last);
      assert Select(true, Accepted(faces)) == [faces[n]];
    } else {
      BestSingleKeepsTop(init);
      var i :| IsAcceptedTop(init, i) && Select(true, ai) == [init[i]];
      BestIndexSnoc(ai, last);
      AcceptedTopAccepted(init, last, i);
      if ScoreKey(last) > ScoreKey(init[i]) {
        assert Select(true, Accepted(faces)) == [faces[n]];
      } else {
        assert Select(true, Accepted(faces)) == [faces[i]];
      }
    }
  }

  /** Applying "best_single" to its own result changes nothing. */
  lemma SelectIdempotent(bestSingle: bool, accepted: seq<Entry>)
    ensures Select(bestSingle, Select(bestSingle, accepted)) == Select(bestSingle, accepted)
  {
  }

  /** The truthy `best_person` values of `faces`, in order, repeats included. */
  function Names(faces: seq<Entry>): (ns: seq<string>)
    ensures |ns| <= |faces|
    decreases |faces|
  {
    if |faces| == 0 then []
    else
      var init := faces[..|faces| - 1];
      var f := faces[|faces| - 1];
      assert faces == init + [f];
      if f.bestPerson.Some? && f.bestPerson.value != "" then Names(init) + [f.bestPerson.value]
      else Names(init)
  }

  lemma NamesSnoc(faces: seq<Entry>, f: Entry)
    ensures Names(faces + [f]) ==
      if f.bestPerson.Some? && f.bestPerson.value != "" then Names(faces) + [f.bestPerson.value] else Names(faces)
  {
  }

  lemma PersonsSnoc(faces: seq<Entry>, i: nat)
    requires i < |faces|
    ensures var p := faces[i].bestPerson;
      Persons(faces[..i + 1]) ==
        if p.Some? && p.value != "" && p.value !in Persons(faces[..i]) then Persons(faces[..i]) + [p.value]
        else Persons(faces[..i])
  {
    assert faces[..i + 1] == faces[..i] + [faces[i]];
    NamesSnoc(faces[..i], faces[i]);
    var p := faces[i].bestPerson;
    if p.Some? && p.value != "" {
      DedupSnoc(Names(faces[..i]), p.value);
    }
  }

  /** The persons an image is filed under: each named person once, in order
      of first appearance. */
  function Persons(selected: seq<Entry>): (ps: seq<string>)
    ensures Distinct(ps)
    ensures |ps| <= |selected|
  {
    Dedup(Names(selected))
  }

  /** A name is listed exactly when some face carries it as a non-empty
      best person. */
  lemma {:induction false} NamesMembers(faces: seq<Entry>, p: string)
    ensures p in Names(faces) <==> p != "" && exists f :: f in faces && f.bestPerson == Some(p)
    decreases |faces|
  {
    if |faces| > 0 {
      var init := faces[..|faces| - 1];
      assert faces == init + [faces[|faces| - 1]];
      NamesMembers(init, p);
    }
  }

  /** The persons are exactly the non-empty best persons of the faces. */
  lemma PersonsMembers(selected: seq<Entry>, p: string)
    ensures p in Persons(selected) <==> p != "" && exists f :: f in selected && f.bestPerson == Some(p)
  {
    NamesMembers(selected, p);
  }

  /** The de-duplication loop with its `seen` set computes `Persons`. */
  method CollectPersons(accepted: seq<Entry>) returns (persons: seq<string>)
    ensures persons == Persons(accepted)
    ensures Distinct(persons)
  {
    persons := [];
    var seen: set<string> := {};
    for i := 0 to |accepted|
      invariant persons == Persons(accepted[..i])
      invariant forall p :: p in seen <==> p in persons
    {
      PersonsSnoc(accepted, i);
      var p := accepted[i].bestPerson;
      if p.Some? && p.value != "" && p.value !in seen {
        seen := seen + {p.value};
        persons := persons + [p.value];
      }
    }
    assert accepted[..|accepted|] == accepted;
  }

  /** For one image with at least one accepted face: every accepted person
      appears exactly once, there are at most as many persons as accepted
      faces, at least one, and at most one under "best_single". */
  lemma PersonsOfAccepted(bestSingle: bool, faces: seq<Entry>)
    requires Accepted(faces) != []
    ensures var ps := Persons(Select(bestSingle, Accepted(faces)));
      && 1 <= |ps| <= |Accepted(faces)|
      && (bestSingle ==> |ps| == 1)
      && Distinct(ps)
      && (forall p :: p in ps <==> exists f :: f in Select(bestSingle, Accepted(faces)) && f.bestPerson == Some(p))
  {
    var sel := Select(bestSingle, Accepted(faces));
    var f := sel[0];
    assert f in sel && IsAccepted(f);
    PersonsMembers(sel, f.bestPerson.value);
    forall p
      ensures p in Persons(sel) <==> exists g :: g in sel && g.bestPerson == Some(p)
    {
      PersonsMembers(sel, p);
      if exists g :: g in sel && g.bestPerson == Some(p) {
        var g :| g in sel && g.bestPerson == Some(p);
        assert IsAccepted(g);
      }
    }
  }
}

=== FILE: grouping.dfy ===
/** Grouping of face entries by image, in the order images first appear
    (the insertion order of the `by_image` dictionary). */
module Grouping {
  import opened Optional
  import opened Decisions
  import opened Seqs

  /** All entries of one image, in document order. */
  datatype Group = Group(imageId: string, faces: seq<Entry>)

  /** The grouping key of an entry; entries whose `image_id` is missing, null
      or empty have none and are dropped. */
  function ImageKey(e: Entry): (k: Option<string>)
    ensures k.Some? <==> e.imageId.Some? && e.imageId.value != ""
    ensures k.Some? ==> k == e.imageId
  {
    if e.imageId.Some? && e.imageId.value != "" then e.imageId else None
  }

  /** The keys of `entries` in document order, repeats included. */
  function KeptIds(entries: seq<Entry>): (ids: seq<string>)
    ensures forall k :: k in ids <==> exists e :: e in entries && ImageKey(e) == Some(k)
    decreases |entries|
  {
    if |entries| == 0 then []
    else
      var init := entries[..|entries| - 1];
      var e := entries[|entries| - 1];
      assert entries == init + [e];
      match ImageKey(e)
      case None => KeptIds(init)
      case Some(k) => KeptIds(init) + [k]
  }

  /** The distinct image ids, in order of first appearance. */
  function ImageIds(entries: seq<Entry>): (ids: seq<string>)
    ensures Distinct(ids)
    ensures forall k :: k in ids <==> exists e :: e in entries && ImageKey(e) == Some(k)
  {
    Dedup(KeptIds(entries))
  }

  /** The entries filed under image `k`, in document order. */
  function FacesOf(entries: seq<Entry>, k: string): seq<Entry>
  {
    Filter(entries, (e: Entry) => ImageKey(e) == Some(k))
  }

  /** Position of the group for `k`, or `|groups|` when there is none. */
  function IndexOfKey(groups: seq<Group>, k: string): (i: nat)
    ensures i <= |groups|
    ensures i < |groups| ==> groups[i].imageId == k
    ensures forall j :: 0 <= j < i ==> groups[j].imageId != k
  {
    if |groups| == 0 then 0
    else if groups[0].imageId == k then 0
    else 1 + IndexOfKey(groups[1..], k)
  }

  /** One iteration of the grouping loop: `by_image.setdefault(k, []).append(e)`. */
  function AddEntry(groups: seq<Group>, e: Entry): seq<Group>
  {
    match ImageKey(e)
    case None => groups
    case Some(k) =>
      var i := IndexOfKey(groups, k);
      if i == |groups| then groups + [Group(k, [e])]
      else groups[i := Group(k, groups[i].faces + [e])]
  }

  /** The grouping loop over all entries. */
  function GroupByImage(entries: seq<Entry>): seq<Group>
    decreases |entries|
  {
    if |entries| == 0 then []
    else AddEntry(GroupByImage(entries[..|entries| - 1]), entries[|entries| - 1])
  }

  /** `groups` is the grouping of `entries` as the reference definition
      describes it. */
  ghost predicate Grouped(entries: seq<Entry>, groups: seq<Group>)
  {
    && |groups| == |ImageIds(entries)|
    && forall i :: 0 <= i < |groups| ==>
         groups[i] == Group(ImageIds(entries)[i], FacesOf(entries, ImageIds(entries)[i]))
  }

  lemma FacesOfSnoc(init: seq<Entry>, e: Entry, k: string)
    ensures FacesOf(init + [e], k) == FacesOf(init, k) + (if ImageKey(e) == Some(k) then [e] else [])
  {
  }

  lemma ImageIdsSnoc(init: seq<Entry>, e: Entry)
    ensures ImageKey(e).None? ==> ImageIds(init + [e]) == ImageIds(init)
    ensures ImageKey(e).Some? ==>
      ImageIds(init + [e]) ==
        (if ImageKey(e).value in ImageIds(init) then ImageIds(init) else ImageIds(init) + [ImageKey(e).value])
  {
  }

  /** A new image id gets a fresh group holding just this entry. */
  lemma AddEntryNewKey(init: seq<Entry>, e: Entry, g: seq<Group>, k: string)
    requires Grouped(init, g)
    requires ImageKey(e) == Some(k) && IndexOfKey(g, k) == |g|
    ensures Grouped(init + [e], AddEntry(g, e))
  {
    var ids := ImageIds(init);
    assert forall j :: 0 <= j < |ids| ==> ids[j] == g[j].imageId != k;
    assert k !in KeptIds(init);
    assert forall i :: 0 <= i < |init| ==> ImageKey(init[i]) != Some(k) by {
      forall i | 0 <= i < |init| ensures ImageKey(init[i]) != Some(k) {
        assert init[i] in init;
      }
    }
    ImageIdsSnoc(init, e);
    forall k' {
      FacesOfSnoc(init, e, k');
    }
  }

  /** A known image id gets the entry appended to its group. */
  lemma AddEntryKnownKey(init: seq<Entry>, e: Entry, g: seq<Group>, k: string)
    requires Grouped(init, g)
    requires ImageKey(e) == Some(k) && IndexOfKey(g, k) < |g|
    ensures Grouped(init + [e], AddEntry(g, e))
  {
    ImageIdsSnoc(init, e);
    assert k in ImageIds(init) by {
      assert ImageIds(init)[IndexOfKey(g, k)] == k;
    }
    forall k' {
      FacesOfSnoc(init, e, k');
    }
  }

  /** The groups are exactly the distinct non-empty image ids in order of
      first appearance, each holding every entry with that id in document
      order. */
  lemma {:induction false} GroupByImageSpec(entries: seq<Entry>)
    ensures Grouped(entries, GroupByImage(entries))
    decreases |entries|
  {
    if |entries| > 0 {
      var init := entries[..|entries| - 1];
      var e := entries[|entries| - 1];
      assert entries == init + [e];
      GroupByImageSpec(init);
      var g := GroupByImage(init);
      match ImageKey(e)
      case None =>
        ImageIdsSnoc(init, e);
        forall k' {
          FacesOfSnoc(init, e, k');
        }
      case Some(k) =>
        if IndexOfKey(g, k) == |g| {
          AddEntryNewKey(init, e, g, k);
        } else {
          AddEntryKnownKey(init, e, g, k);
        }
    }
  }

  /** Groups are visited in the order their image ids first occur. */
  lemma GroupsInFirstAppearanceOrder(entries: seq<Entry>, i: int, j: int)
    requires 0 <= i < j < |GroupByImage(entries)|
    ensures GroupByImage(entries)[i].imageId != GroupByImage(entries)[j].imageId
    ensures var x, y := GroupByImage(entries)[i].imageId, GroupByImage(entries)[j].imageId;
      x in KeptIds(entries) && y in KeptIds(entries) &&
      FirstIndex(KeptIds(entries), x) < FirstIndex(KeptIds(entries), y)
  {
    GroupByImageSpec(entries);
    DedupFirstSeenOrder(KeptIds(entries), i, j);
  }
}

=== FILE: optional.dfy ===
/** A value that a JSON record may or may not carry: `dict.get(key)` yields
    `None` both for a missing key and for an explicit `null`. */
module Optional {

  datatype Option<+T> = None | Some(value: T)
}

=== FILE: paths.dfy ===
/** File paths as plain strings, with the two pathlib operations the planner
    uses (`/` and `.name`) and source-file resolution. */
module Paths {
  import opened Optional

  type Path = string

  /** `base / name`: an absolute right operand replaces the base. */
  function Join(base: Path, name: string): Path
  {
    if |name| > 0 && name[0] == '/' then name else base + "/" + name
  }

  /** The final component of `p`. */
  function BaseName(p: Path): (r: string)
    ensures '/' !in r
    decreases |p|
  {
    if |p| == 0 || p[|p| - 1] == '/' then ""
    else BaseName(p[..|p| - 1]) + [p[|p| - 1]]
  }

  /** The final component is the longest suffix without a separator. */
  lemma {:induction false} BaseNameIsLastComponent(p: Path)
    ensures |BaseName(p)| <= |p| && BaseName(p) == p[|p| - |BaseName(p)|..]
    ensures |BaseName(p)| < |p| ==> p[|p| - |BaseName(p)| - 1] == '/'
    decreases |p|
  {
    if |p| > 0 && p[|p| - 1] != '/' {
      var init := p[..|p| - 1];
      BaseNameIsLastComponent(init);
      var n := BaseName(init);
      assert p[|p| - |n| - 1..] == init[|init| - |n|..] + [p[|p| - 1]];
    }
  }

  lemma {:induction false} BaseNameAfterSeparator(dir: Path, n: string)
    requires '/' !in n
    ensures BaseName(dir + "/" + n) == n
    decreases |n|
  {
    if |n| > 0 {
      var n' := n[..|n| - 1];
      assert (dir + "/" + n)[..|dir + "/" + n| - 1] == dir + "/" + n';
      BaseNameAfterSeparator(dir, n');
      assert n == n' + [n[|n| - 1]];
    }
  }

  /** Placing a file's name inside any directory keeps that name: this is why,
      after a move, copies taken from the moved file land under the same
      file name as the original. */
  lemma JoinKeepsBaseName(dir: Path, src: Path)
    ensures BaseName(Join(dir, BaseName(src))) == BaseName(src)
  {
    var n := BaseName(src);
    if |n| > 0 {
      assert n[0] in n;
    }
    BaseNameAfterSeparator(dir, n);
  }

  /** Where an image is looked for: the id as a path first, then the id
      relative to the inbox root. `None` when neither is an existing file. */
  function Resolve(imageId: string, inbox: Path, files: set<Path>): (r: Option<Path>)
    ensures r.None? <==> imageId !in files && Join(inbox, imageId) !in files
    ensures r.Some? ==> r.value in files
    ensures imageId in files ==> r == Some(imageId)
    ensures r.Some? && r.value != imageId ==> r.value == Join(inbox, imageId)
  {
    if imageId in files then Some(imageId)
    else if Join(inbox, imageId) in files then Some(Join(inbox, imageId))
    else None
  }
}

=== FILE: planner.dfy ===
/** The decision-application planner: for every image group it resolves the
    source file, picks the persons to file the image under, and emits the
    move / copy / link operations with their counters. The file system is the
    set of paths that are existing files; it evolves as operations run, so a
    later image may resolve differently after an earlier move. */
module Planner {
  import opened Optional
  import opened Decisions
  import opened Paths
  import opened Grouping
  import opened Faces

  /** The `--mode` command-line choice. */
  datatype Mode = MoveMode | CopyMode | LinkMode

  /** A file operation. `Link` stands for the whole hardlink, then symlink,
      then copy fallback chain; the model treats each of them as leaving a file
      at `dst`, although a symlink to a relative source dangles. */
  datatype Op = Move(src: Path, dst: Path) | Copy(src: Path, dst: Path) | Link(src: Path, dst: Path)

  datatype Kind = MoveKind | CopyKind | LinkKind

  function KindOf(op: Op): Kind
  {
    match op
    case Move(_, _) => MoveKind
    case Copy(_, _) => CopyKind
    case Link(_, _) => LinkKind
  }

  /** The number of operations of kind `k`. */
  function Count(ops: seq<Op>, k: Kind): (n: nat)
    ensures n <= |ops|
    decreases |ops|
  {
    if |ops| == 0 then 0
    else (if KindOf(ops[0]) == k then 1 else 0) + Count(ops[1..], k)
  }

  lemma {:induction false} CountAppend(a: seq<Op>, b: seq<Op>, k: Kind)
    ensures Count(a + b, k) == Count(a, k) + Count(b, k)
    decreases |a|
  {
    if |a| > 0 {
      assert (a + b)[1..] == a[1..] + b;
      CountAppend(a[1..], b, k);
    } else {
      assert a + b == b;
    }
  }

  /** Every operation has exactly one kind. */
  lemma {:induction false} CountKinds(ops: seq<Op>)
    ensures Count(ops, MoveKind) + Count(ops, CopyKind) + Count(ops, LinkKind) == |ops|
    decreases |ops|
  {
    if |ops| > 0 {
      CountKinds(ops[1..]);
    }
  }

  /** When all operations share one kind, that kind counts them all. */
  lemma {:induction false} CountUniform(ops: seq<Op>, k: Kind)
    requires forall i :: 0 <= i < |ops| ==> KindOf(ops[i]) == k
    ensures Count(ops, k) == |ops|
    ensures forall k' :: k' != k ==> Count(ops, k') == 0
    decreases |ops|
  {
    if |ops| > 0 {
      CountUniform(ops[1..], k);
    }
  }

  /** The files present after one operation. */
  function ApplyOp(files: set<Path>, op: Op): set<Path>
  {
    match op
    case Move(s, d) => files - {s} + {d}
    case Copy(_, d) => files + {d}
    case Link(_, d) => files + {d}
  }

  /** The files present after a sequence of operations. */
  function ApplyOps(files: set<Path>, ops: seq<Op>): set<Path>
    decreases |ops|
  {
    if |ops| == 0 then files else ApplyOps(ApplyOp(files, ops[0]), ops[1..])
  }

  /** Every operation finds its source file in place when it runs. */
  predicate Executable(files: set<Path>, ops: seq<Op>)
    decreases |ops|
  {
    |ops| == 0 || (ops[0].src in files && Executable(ApplyOp(files, ops[0]), ops[1..]))
  }

  lemma {:induction false} ApplyOpsAppend(files: set<Path>, a: seq<Op>, b: seq<Op>)
    ensures ApplyOps(files, a + b) == ApplyOps(ApplyOps(files, a), b)
    ensures Executable(files, a + b) <==> Executable(files, a) && Executable(ApplyOps(files, a), b)
    decreases |a|
  {
    if |a| > 0 {
      assert (a + b)[0] == a[0];
      assert (a + b)[1..] == a[1..] + b;
      ApplyOpsAppend(ApplyOp(files, a[0]), a[1..], b);
    } else {
      assert a + b == b;
    }
  }

  /** `sorted_root / person / src.name`. */
  function Destination(sortedRoot: Path, person: string, src: Path): Path
  {
    Join(Join(sortedRoot, person), BaseName(src))
  }

  /** The operation loop for one image, from person `i` on, with `src` the
      current location of the image. In move mode the first operation moves
      the image and the source of every later one becomes the moved file. */
  function EmitOps(mode: Mode, sortedRoot: Path, persons: seq<string>, i: nat, src: Path): (ops: seq<Op>)
    requires i <= |persons|
    ensures |ops| == |persons| - i
    decreases |persons| - i
  {
    if i == |persons| then []
    else
      var dst := Destination(sortedRoot, persons[i], src);
      match mode
      case MoveMode =>
        if |persons| == 1 || i == 0 then [Move(src, dst)] + EmitOps(mode, sortedRoot, persons, i + 1, dst)
        else [Copy(src, dst)] + EmitOps(mode, sortedRoot, persons, i + 1, src)
      case CopyMode => [Copy(src, dst)] + EmitOps(mode, sortedRoot, persons, i + 1, src)
      case LinkMode => [Link(src, dst)] + EmitOps(mode, sortedRoot, persons, i + 1, src)
  }

  /** Once past the first person (or outside move mode) the `k`-th operation
      reads `src` and writes to its person's folder under `src`'s name. */
  lemma {:induction false} EmitOpsFromSource(mode: Mode, sortedRoot: Path, persons: seq<string>, i: nat, src: Path, k: nat)
    requires i + k < |persons|
    requires mode != MoveMode || i > 0
    ensures EmitOps(mode, sortedRoot, persons, i, src)[k] ==
      if mode == LinkMode then Link(src, Destination(sortedRoot, persons[i + k], src))
      else Copy(src, Destination(sortedRoot, persons[i + k], src))
    decreases k
  {
    var ops := EmitOps(mode, sortedRoot, persons, i, src);
    var rest := EmitOps(mode, sortedRoot, persons, i + 1, src);
    var dst := Destination(sortedRoot, persons[i], src);
    var first := if mode == LinkMode then Link(src, dst) else Copy(src, dst);
    assert mode == MoveMode ==> !(|persons| == 1 || i == 0);
    assert ops == [first] + rest;
    if k > 0 {
      assert ops[k] == rest[k - 1];
      EmitOpsFromSource(mode, sortedRoot, persons, i + 1, src, k - 1);
      assert (i + 1) + (k - 1) == i + k;
    }
  }

  /** In move mode the image is moved to the first person's folder and
      copied from there to the others, always under its original name. */
  lemma EmitOpsMove(sortedRoot: Path, persons: seq<string>, src: Path, k: nat)
    requires k < |persons|
    ensures var dst0 := Destination(sortedRoot, persons[0], src);
      EmitOps(MoveMode, sortedRoot, persons, 0, src)[k] ==
        if k == 0 then Move(src, dst0) else Copy(dst0, Destination(sortedRoot, persons[k], src))
  {
    var dst := Destination(sortedRoot, persons[0], src);
    var ops := EmitOps(MoveMode, sortedRoot, persons, 0, src);
    var rest := EmitOps(MoveMode, sortedRoot, persons, 1, dst);
    assert ops == [Move(src, dst)] + rest;
    if k > 0 {
      EmitOpsFromSource(MoveMode, sortedRoot, persons, 1, dst, k - 1);
      assert 1 + (k - 1) == k;
      JoinKeepsBaseName(Join(sortedRoot, persons[0]), src);
      assert Destination(sortedRoot, persons[k], dst) == Destination(sortedRoot, persons[k], src);
    }
  }

  /** No operation of an image reads a file that is not there: the image
      itself is present, and in move mode the copies read the moved file. */
  lemma {:induction false} EmitOpsExecutable(mode: Mode, sortedRoot: Path, persons: seq<string>, i: nat, src: Path, files: set<Path>)
    requires i <= |persons| && src in files
    ensures Executable(files, EmitOps(mode, sortedRoot, persons, i, src))
    decreases |persons| - i
  {
    if i < |persons| {
      var ops := EmitOps(mode, sortedRoot, persons, i, src);
      var after := ApplyOp(files, ops[0]);
      if mode == MoveMode && (|persons| == 1 || i == 0) {
        EmitOpsExecutable(mode, sortedRoot, persons, i + 1, ops[0].dst, after);
      } else {
        EmitOpsExecutable(mode, sortedRoot, persons, i + 1, src, after);
      }
      assert ops[1..] == EmitOps(mode, sortedRoot, persons, i + 1, ops[0].dst)
          || ops[1..] == EmitOps(mode, sortedRoot, persons, i + 1, src);
    }
  }

  /** The operations of one image, as the mode prescribes: one per person,
      each to `sorted_root/person/<image name>`; copy and link mode read the
      image where it is; move mode moves it to the first person's folder and
      copies it from there to the others. */
  ghost predicate Shaped(mode: Mode, sortedRoot: Path, src: Path, persons: seq<string>, ops: seq<Op>)
  {
    && |ops| == |persons|
    && (forall k :: 0 <= k < |ops| ==> ops[k].dst == Destination(sortedRoot, persons[k], src))
    && (mode == CopyMode ==> forall k :: 0 <= k < |ops| ==> ops[k] == Copy(src, ops[k].dst))
    && (mode == LinkMode ==> forall k :: 0 <= k < |ops| ==> ops[k] == Link(src, ops[k].dst))
    && (mode == MoveMode && |ops| > 0 ==>
         && ops[0] == Move(src, ops[0].dst)
         && forall k :: 1 <= k < |ops| ==> ops[k] == Copy(ops[0].dst, ops[k].dst))
  }

  /** The operation loop produces operations of the prescribed shape. */
  lemma EmitOpsShaped(mode: Mode, sortedRoot: Path, persons: seq<string>, src: Path)
    ensures Shaped(mode, sortedRoot, src, persons, EmitOps(mode, sortedRoot, persons, 0, src))
  {
    var ops := EmitOps(mode, sortedRoot, persons, 0, src);
    forall k | 0 <= k < |ops|
      ensures ops[k].dst == Destination(sortedRoot, persons[k], src)
      ensures mode == CopyMode ==> ops[k] == Copy(src, ops[k].dst)
      ensures mode == LinkMode ==> ops[k] == Link(src, ops[k].dst)
      ensures mode == MoveMode && k > 0 ==> ops[k] == Copy(ops[0].dst, ops[k].dst)
    {
      if mode == MoveMode {
        EmitOpsMove(sortedRoot, persons, src, 0);
        EmitOpsMove(sortedRoot, persons, src, k);
      } else {
        EmitOpsFromSource(mode, sortedRoot, persons, 0, src, k);
      }
    }
    if mode == MoveMode && |ops| > 0 {
      EmitOpsMove(sortedRoot, persons, src, 0);
    }
  }

  /** How an image group ended: skipped because no file was found, skipped
      because no face was accepted, or filed under `persons` by `ops`. */
  datatype GroupOutcome =
    | Missing(imageId: string)
    | NoAccepted(imageId: string)
    | Applied(imageId: string, src: Path, persons: seq<string>, ops: seq<Op>)

  /** One iteration of the loop over image groups, given the files present. */
  function PlanGroup(g: Group, bestSingle: bool, inbox: Path, sortedRoot: Path, mode: Mode, files: set<Path>): (o: GroupOutcome)
    ensures o.imageId == g.imageId
  {
    match Resolve(g.imageId, inbox, files)
    case None => Missing(g.imageId)
    case Some(src) =>
      var accepted := Accepted(g.faces);
      if accepted == [] then NoAccepted(g.imageId)
      else
        var persons := Persons(Select(bestSingle, accepted));
        Applied(g.imageId, src, persons, EmitOps(mode, sortedRoot, persons, 0, src))
  }

  /** A group is skipped as missing exactly when neither the id nor the id
      under the inbox is a file, and as unaccepted exactly when its file was
      found but no face is accepted. Otherwise the image, found preferably at
      the path given, is filed under at least one person by operations of the
      prescribed shape, none of which reads a missing file. */
  lemma PlanGroupSpec(g: Group, bestSingle: bool, inbox: Path, sortedRoot: Path, mode: Mode, files: set<Path>)
    ensures var o := PlanGroup(g, bestSingle, inbox, sortedRoot, mode, files);
      && (o.Missing? <==> g.imageId !in files && Join(inbox, g.imageId) !in files)
      && (o.NoAccepted? <==> (g.imageId in files || Join(inbox, g.imageId) in files) && Accepted(g.faces) == [])
      && (o.Applied? ==>
           && o.src in files
           && (o.src == g.imageId || (g.imageId !in files && o.src == Join(inbox, g.imageId)))
           && o.persons == Persons(Select(bestSingle, Accepted(g.faces)))
           && 1 <= |o.persons|
           && Shaped(mode, sortedRoot, o.src, o.persons, o.ops)
           && Executable(files, o.ops))
  {
    var o := PlanGroup(g, bestSingle, inbox, sortedRoot, mode, files);
    if o.Applied? {
      PersonsOfAccepted(bestSingle, g.faces);
      EmitOpsShaped(mode, sortedRoot, o.persons, o.src);
      EmitOpsExecutable(mode, sortedRoot, o.persons, 0, o.src, files);
    }
  }

  /** The state of `main()` after some groups: outcomes so far, operations
      performed, the four counters and the files present. */
  datatype Report = Report(
    outcomes: seq<GroupOutcome>,
    ops: seq<Op>,
    moved: nat,
    copied: nat,
    linked: nat,
    skipped: nat,
    files: set<Path>)

  /** Perform one operation and bump its counter. */
  function Perform(r: Report, op: Op): Report
  {
    var r' := r.(ops := r.ops + [op], files := ApplyOp(r.files, op));
    match op
    case Move(_, _) => r'.(moved := r.moved + 1)
    case Copy(_, _) => r'.(copied := r.copied + 1)
    case Link(_, _) => r'.(linked := r.linked + 1)
  }

  function PerformAll(r: Report, ops: seq<Op>): Report
    decreases |ops|
  {
    if |ops| == 0 then r else PerformAll(Perform(r, ops[0]), ops[1..])
  }

  lemma {:induction false} PerformAllSpec(r: Report, ops: seq<Op>)
    ensures var r' := PerformAll(r, ops);
      && r'.outcomes == r.outcomes && r'.skipped == r.skipped
      && r'.ops == r.ops + ops
      && r'.moved == r.moved + Count(ops, MoveKind)
      && r'.copied == r.copied + Count(ops, CopyKind)
      && r'.linked == r.linked + Count(ops, LinkKind)
      && r'.files == ApplyOps(r.files, ops)
    decreases |ops|
  {
    if |ops| > 0 {
      PerformAllSpec(Perform(r, ops[0]), ops[1..]);
      assert r.ops + [ops[0]] + ops[1..] == r.ops + ops;
    }
  }

  /** Handle one image group: a skipped group bumps `skipped` only. */
  function Step(r: Report, g: Group, bestSingle: bool, inbox: Path, sortedRoot: Path, mode: Mode): Report
  {
    var o := PlanGroup(g, bestSingle, inbox, sortedRoot, mode, r.files);
    var r' := r.(outcomes := r.outcomes + [o]);
    if o.Applied? then PerformAll(r', o.ops) else r'.(skipped := r.skipped + 1)
  }

  /** The loop over image groups, in order. */
  function Run(groups: seq<Group>, bestSingle: bool, inbox: Path, sortedRoot: Path, mode: Mode, files: set<Path>): Report
    decreases |groups|
  {
    if |groups| == 0 then Report([], [], 0, 0, 0, 0, files)
    else Step(Run(groups[..|groups| - 1], bestSingle, inbox, sortedRoot, mode, files),
              groups[|groups| - 1], bestSingle, inbox, sortedRoot, mode)
  }

  /** The operations of all filed groups, in order. */
  function AllOps(outcomes: seq<GroupOutcome>): seq<Op>
    decreases |outcomes|
  {
    if |outcomes| == 0 then []
    else
      var o := outcomes[|outcomes| - 1];
      AllOps(outcomes[..|outcomes| - 1]) + (if o.Applied? then o.ops else [])
  }

  /** The number of filed (not skipped) groups. */
  function AppliedCount(outcomes: seq<GroupOutcome>): (n: nat)
    ensures n <= |outcomes|
    decreases |outcomes|
  {
    if |outcomes| == 0 then 0
    else AppliedCount(outcomes[..|outcomes| - 1]) + (if outcomes[|outcomes| - 1].Applied? then 1 else 0)
  }

  /** What an outcome says about its group, independent of the files. */
  ghost predicate Agrees(g: Group, o: GroupOutcome, bestSingle: bool, inbox: Path, sortedRoot: Path, mode: Mode)
  {
    && o.imageId == g.imageId
    && (o.NoAccepted? ==> Accepted(g.faces) == [])
    && (o.Applied? ==>
         && Accepted(g.faces) != []
         && (o.src == g.imageId || o.src == Join(inbox, g.imageId))
         && o.persons == Persons(Select(bestSingle, Accepted(g.faces)))
         && 1 <= |o.persons|
         && Shaped(mode, sortedRoot, o.src, o.persons, o.ops))
  }

  /** The bookkeeping of a report started from `files0`: the operations are
      those of the filed groups, each counter counts its kind, skipped and
      filed groups add up, and the files are what the operations left, none
      of which read a missing file. */
  ghost predicate Consistent(r: Report, files0: set<Path>)
  {
    && r.ops == AllOps(r.outcomes)
    && r.moved == Count(r.ops, MoveKind)
    && r.copied == Count(r.ops, CopyKind)
    && r.linked == Count(r.ops, LinkKind)
    && r.skipped + AppliedCount(r.outcomes) == |r.outcomes|
    && r.files == ApplyOps(files0, r.ops)
    && Executable(files0, r.ops)
  }

  /** The counters as the mode determines them. */
  ghost predicate ModeCounts(r: Report, mode: Mode)
  {
    && (mode == MoveMode ==> r.moved == AppliedCount(r.outcomes) && r.linked == 0)
    && (mode == CopyMode ==> r.moved == 0 && r.linked == 0)
    && (mode == LinkMode ==> r.moved == 0 && r.copied == 0)
  }

  /** Operation counts of one filed group. */
  lemma ShapedCounts(mode: Mode, sortedRoot: Path, src: Path, persons: seq<string>, ops: seq<Op>)
    requires Shaped(mode, sortedRoot, src, persons, ops) && |ops| >= 1
    ensures mode == MoveMode ==> Count(ops, MoveKind) == 1 && Count(ops, LinkKind) == 0
    ensures mode == CopyMode ==> Count(ops, MoveKind) == 0 && Count(ops, LinkKind) == 0
    ensures mode == LinkMode ==> Count(ops, MoveKind) == 0 && Count(ops, CopyKind) == 0
  {
    match mode
    case MoveMode =>
      CountUniform(ops[1..], CopyKind);
      assert ops == [ops[0]] + ops[1..];
      CountAppend([ops[0]], ops[1..], MoveKind);
      CountAppend([ops[0]], ops[1..], LinkKind);
    case CopyMode =>
      CountUniform(ops, CopyKind);
    case LinkMode =>
      CountUniform(ops, LinkKind);
  }

  lemma OutcomesSnoc(outs: seq<GroupOutcome>, o: GroupOutcome)
    ensures AllOps(outs + [o]) == AllOps(outs) + (if o.Applied? then o.ops else [])
    ensures AppliedCount(outs + [o]) == AppliedCount(outs) + (if o.Applied? then 1 else 0)
  {
  }

  /** Filing one group keeps the bookkeeping consistent. */
  lemma StepApplied(r: Report, o: GroupOutcome, mode: Mode, sortedRoot: Path, files0: set<Path>)
    requires Consistent(r, files0) && ModeCounts(r, mode)
    requires o.Applied? && |o.ops| >= 1
    requires Shaped(mode, sortedRoot, o.src, o.persons, o.ops) && Executable(r.files, o.ops)
    ensures var r' := PerformAll(r.(outcomes := r.outcomes + [o]), o.ops);
      Consistent(r', files0) && ModeCounts(r', mode)
  {
    var r0 := r.(outcomes := r.outcomes + [o]);
    PerformAllSpec(r0, o.ops);
    OutcomesSnoc(r.outcomes, o);
    CountAppend(r.ops, o.ops, MoveKind);
    CountAppend(r.ops, o.ops, CopyKind);
    CountAppend(r.ops, o.ops, LinkKind);
    ApplyOpsAppend(files0, r.ops, o.ops);
    ShapedCounts(mode, sortedRoot, o.src, o.persons, o.ops);
  }

  /** Handling one group appends an outcome that agrees with the group. */
  lemma StepOutcome(r: Report, g: Group, bestSingle: bool, inbox: Path, sortedRoot: Path, mode: Mode)
    ensures var r' := Step(r, g, bestSingle, inbox, sortedRoot, mode);
      && |r'.outcomes| == |r.outcomes| + 1
      && r'.outcomes[..|r.outcomes|] == r.outcomes
      && Agrees(g, r'.outcomes[|r.outcomes|], bestSingle, inbox, sortedRoot, mode)
  {
    var o := PlanGroup(g, bestSingle, inbox, sortedRoot, mode, r.files);
    PlanGroupAgrees(g, bestSingle, inbox, sortedRoot, mode, r.files);
    if o.Applied? {
      PerformAllSpec(r.(outcomes := r.outcomes + [o]), o.ops);
    }
  }

  /** Handling one group keeps the bookkeeping consistent. */
  lemma StepSpec(r: Report, g: Group, bestSingle: bool, inbox: Path, sortedRoot: Path, mode: Mode, files0: set<Path>)
    requires Consistent(r, files0) && ModeCounts(r, mode)
    ensures var r' := Step(r, g, bestSingle, inbox, sortedRoot, mode);
      Consistent(r', files0) && ModeCounts(r', mode)
  {
    var o := PlanGroup(g, bestSingle, inbox, sortedRoot, mode, r.files);
    PlanGroupSpec(g, bestSingle, inbox, sortedRoot, mode, r.files);
    if o.Applied? {
      StepApplied(r, o, mode, sortedRoot, files0);
      PerformAllSpec(r.(outcomes := r.outcomes + [o]), o.ops);
    } else {
      OutcomesSnoc(r.outcomes, o);
    }
  }

  /** The loop over groups keeps its bookkeeping consistent. */
  lemma {:induction false} RunSpec(groups: seq<Group>, bestSingle: bool, inbox: Path, sortedRoot: Path, mode: Mode, files: set<Path>)
    ensures var r := Run(groups, bestSingle, inbox, sortedRoot, mode, files);
      Consistent(r, files) && ModeCounts(r, mode)
    decreases |groups|
  {
    if |groups| > 0 {
      var init := groups[..|groups| - 1];
      var r0 := Run(init, bestSingle, inbox, sortedRoot, mode, files);
      RunSpec(init, bestSingle, inbox, sortedRoot, mode, files);
      StepSpec(r0, groups[|groups| - 1], bestSingle, inbox, sortedRoot, mode, files);
      assert Run(groups, bestSingle, inbox, sortedRoot, mode, files)
          == Step(r0, groups[|groups| - 1], bestSingle, inbox, sortedRoot, mode);
    }
  }

  /** The loop over groups records one outcome per group. */
  lemma {:induction false} RunLength(groups: seq<Group>, bestSingle: bool, inbox: Path, sortedRoot: Path, mode: Mode, files: set<Path>)
    ensures |Run(groups, bestSingle, inbox, sortedRoot, mode, files).outcomes| == |groups|
    decreases |groups|
  {
    if |groups| > 0 {
      var init := groups[..|groups| - 1];
      RunLength(init, bestSingle, inbox, sortedRoot, mode, files);
      StepOutcome(Run(init, bestSingle, inbox, sortedRoot, mode, files), groups[|groups| - 1],
                  bestSingle, inbox, sortedRoot, mode);
    }
  }

  /** The `j`-th outcome of the loop over groups is the `j`-th group planned
      against the files left by the groups before it. */
  lemma {:induction false} RunOutcomeAt(groups: seq<Group>, bestSingle: bool, inbox: Path, sortedRoot: Path, mode: Mode, files: set<Path>, j: nat)
    requires j < |groups|
    ensures j < |Run(groups, bestSingle, inbox, sortedRoot, mode, files).outcomes|
    ensures Run(groups, bestSingle, inbox, sortedRoot, mode, files).outcomes[j] ==
      PlanGroup(groups[j], bestSingle, inbox, sortedRoot, mode, Run(groups[..j], bestSingle, inbox, sortedRoot, mode, files).files)
    decreases |groups|
  {
    var init := groups[..|groups| - 1];
    var r0 := Run(init, bestSingle, inbox, sortedRoot, mode, files);
    RunLength(init, bestSingle, inbox, sortedRoot, mode, files);
    var o := PlanGroup(groups[|groups| - 1], bestSingle, inbox, sortedRoot, mode, r0.files);
    if o.Applied? {
      PerformAllSpec(r0.(outcomes := r0.outcomes + [o]), o.ops);
    }
    var r := Run(groups, bestSingle, inbox, sortedRoot, mode, files);
    assert r.outcomes == r0.outcomes + [o];
    if j < |init| {
      RunOutcomeAt(init, bestSingle, inbox, sortedRoot, mode, files, j);
      assert groups[j] == init[j];
      assert init[..j] == groups[..j];
    } else {
      assert init == groups[..j];
    }
  }

  /** What a planned group records agrees with the group. */
  lemma PlanGroupAgrees(g: Group, bestSingle: bool, inbox: Path, sortedRoot: Path, mode: Mode, files: set<Path>)
    ensures Agrees(g, PlanGroup(g, bestSingle, inbox, sortedRoot, mode, files), bestSingle, inbox, sortedRoot, mode)
  {
    PlanGroupSpec(g, bestSingle, inbox, sortedRoot, mode, files);
  }

  /** Apply a decisions document: group the entries by image, then file each
      image under its accepted persons. */
  function Plan(doc: Document, inbox: Path, sortedRoot: Path, mode: Mode, files: set<Path>): (r: Report)
    ensures |r.outcomes| == |GroupByImage(doc.entries)|
    ensures forall j :: 0 <= j < |r.outcomes| ==>
      Agrees(GroupByImage(doc.entries)[j], r.outcomes[j], IsBestSingle(doc), inbox, sortedRoot, mode)
    ensures r.skipped + AppliedCount(r.outcomes) == |GroupByImage(doc.entries)|
    ensures r.ops == AllOps(r.outcomes)
    ensures r.moved == Count(r.ops, MoveKind) && r.copied == Count(r.ops, CopyKind) && r.linked == Count(r.ops, LinkKind)
    ensures r.moved + r.copied + r.linked == |r.ops|
    ensures mode == MoveMode ==> r.moved == AppliedCount(r.outcomes) && r.linked == 0
    ensures mode == CopyMode ==> r.moved == 0 && r.linked == 0 && r.copied == |r.ops|
    ensures mode == LinkMode ==> r.moved == 0 && r.copied == 0 && r.linked == |r.ops|
    ensures r.files == ApplyOps(files, r.ops)
    ensures Executable(files, r.ops)
  {
    var groups := GroupByImage(doc.entries);
    RunSpec(groups, IsBestSingle(doc), inbox, sortedRoot, mode, files);
    RunLength(groups, IsBestSingle(doc), inbox, sortedRoot, mode, files);
    var r := Run(groups, IsBestSingle(doc), inbox, sortedRoot, mode, files);
    forall j | 0 <= j < |r.outcomes|
      ensures Agrees(groups[j], r.outcomes[j], IsBestSingle(doc), inbox, sortedRoot, mode)
    {
      RunOutcomeAt(groups, IsBestSingle(doc), inbox, sortedRoot, mode, files, j);
      PlanGroupAgrees(groups[j], IsBestSingle(doc), inbox, sortedRoot, mode,
                      Run(groups[..j], IsBestSingle(doc), inbox, sortedRoot, mode, files).files);
    }
    CountKinds(r.ops);
    r
  }
}

=== FILE: seqs.dfy ===
/** Order-preserving sequence helpers used by the planner: filtering and
    first-seen de-duplication (the `seen`-set loop that collects
    the persons). */
module Seqs {

  /** No element occurs twice. */
  predicate Distinct<T(==,!new)>(s: seq<T>)
  {
    forall i, j :: 0 <= i < j < |s| ==> s[i] != s[j]
  }

  /** The elements of `s` satisfying `p`, in their original relative order. */
  function Filter<T(==,!new)>(s: seq<T>, p: T -> bool): (r: seq<T>)
    ensures |r| <= |s|
    ensures forall x :: x in r <==> x in s && p(x)
    ensures (forall i :: 0 <= i < |s| ==> !p(s[i])) ==> r == []
    decreases |s|
  {
    if |s| == 0 then []
    else
      var init := s[..|s| - 1];
      var rest := Filter(init, p);
      assert s == init + [s[|s| - 1]];
      if p(s[|s| - 1]) then rest + [s[|s| - 1]] else rest
  }

  /** Filtering keeps the order and the repeats of the kept elements: an
      element appended to the input is appended to the output when kept. */
  lemma FilterSnoc<T(!new)>(s: seq<T>, x: T, p: T -> bool)
    ensures Filter(s + [x], p) == Filter(s, p) + (if p(x) then [x] else [])
  {
    assert (s + [x])[..|s|] == s;
  }

  /** Each element of `s` once, at the position of its first occurrence. */
  function Dedup<T(==,!new)>(s: seq<T>): (r: seq<T>)
    ensures |r| <= |s|
    ensures Distinct(r)
    ensures forall x :: x in r <==> x in s
    decreases |s|
  {
    if |s| == 0 then []
    else
      var init := s[..|s| - 1];
      var rest := Dedup(init);
      assert s == init + [s[|s| - 1]];
      if s[|s| - 1] in rest then rest else rest + [s[|s| - 1]]
  }

  /** De-duplicating one more element adds it only when it is new. */
  lemma DedupSnoc<T(!new)>(s: seq<T>, x: T)
    ensures Dedup(s + [x]) == if x in Dedup(s) then Dedup(s) else Dedup(s) + [x]
  {
  }

  /** Index of the first occurrence of `x` in `s`. */
  function FirstIndex<T(==,!new)>(s: seq<T>, x: T): (i: nat)
    requires x in s
    ensures i < |s| && s[i] == x
    ensures forall j :: 0 <= j < i ==> s[j] != x
  {
    if s[0] == x then 0 else 1 + FirstIndex(s[1..], x)
  }

  lemma FirstIndexPrefix<T(!new)>(s: seq<T>, t: seq<T>, x: T)
    requires x in s
    ensures FirstIndex(s + t, x) == FirstIndex(s, x)
  {
    assert (s + t)[FirstIndex(s, x)] == x;
  }

  /** De-duplication keeps the order of first appearance. */
  lemma {:induction false} DedupFirstSeenOrder<T(!new)>(s: seq<T>, i: int, j: int)
    requires 0 <= i < j < |Dedup(s)|
    ensures FirstIndex(s, Dedup(s)[i]) < FirstIndex(s, Dedup(s)[j])
    decreases |s|
  {
    var init := s[..|s| - 1];
    var last := s[|s| - 1];
    var rest := Dedup(init);
    assert s == init + [last];
    var x, y := Dedup(s)[i], Dedup(s)[j];
    assert x in init by {
      assert i < |rest|;
      assert x == rest[i];
    }
    FirstIndexPrefix(init, [last], x);
    if j < |rest| {
      assert y == rest[j];
      FirstIndexPrefix(init, [last], y);
      DedupFirstSeenOrder(init, i, j);
    } else {
      assert y == last && last !in init;
      assert FirstIndex(s, y) == |s| - 1;
    }
  }

  /** A sequence without repeats is its own de-duplication. */
  lemma {:induction false} DedupOfDistinct<T(!new)>(s: seq<T>)
    requires Distinct(s)
    ensures Dedup(s) == s
    decreases |s|
  {
    if |s| > 0 {
      var init := s[..|s| - 1];
      assert Distinct(init);
      DedupOfDistinct(init);
      assert s[|s| - 1] !in init;
      assert s == init + [s[|s| - 1]];
    }
  }
}
